=== FILE: README.md ===
# Airport directory merge, modelled in Dafny

`makeAirports.js` builds one directory of airports keyed by IATA code from three
data sets: the OpenFlights `airports.dat` table, the OurAirports `airports.csv`
table and a third-party `airports.json` list, plus a country name-to-code table
that an interactive question can extend. This project models that pipeline as
pure functions over the parsed rows, in six stages:

1. **Validity filter** (`Dat`): keep the rows with an IATA code and a timezone
   that is neither empty nor the null marker `\N`.
2. **Country resolution** (`Countries`): every distinct country name whose code
   in the table is falsy is asked about once. The question is the parameter
   `ask: string -> string`. The answer is stored in the table.
3. **OurAirports accumulation** (`OurAirports`): `hasScheduledService` is an OR
   over the rows with an IATA code. `states` keeps the `iso_region` of the last
   row with that code.
4. **Transform** (`Transform`): each row gets its flag, its country code, its
   raw country name and its state. `countryNames` is updated. The record is cut
   down to the ten fields of `_.pick`.
5. **IATA keying** (`Keying`): records without a truthy country code are
   dropped. A record is stored when its key is absent. It replaces the stored
   record when it has scheduled service.
6. **JSON fallback** (`Fallback`): an `airports.json` entry is added only under a
   key that is still absent, and only when its present required keys are all
   truthy.

`Pipeline` composes the stages. `Js` holds the JavaScript semantics they need:
values that are `undefined`, `null` or a string; truthiness; `||`; the
conversion of a value to a property name (`undefined` becomes `"undefined"`);
`substr`; and `toLowerCase`.

`makeAirports.js` keys records by IATA code only. It keeps no ICAO index and
never merges records across IATA and ICAO keys. It does not round coordinates:
they pass through as uninterpreted strings. It does not lower-case country
codes: `country` is whatever the name-to-code table holds. For a record keyed
from airports.dat, `countryName` is the raw country string of its row. For a
record added from airports.json, `countryName` is the `countryNames` entry for
its code when that entry is truthy, and otherwise the entry's own `country`
value.

Quirks of the code that the model keeps as they are:

- Line 57 fills `countryNames` by looking up the name-to-code table with a
  country *code* as the key. Starting from an empty object, every entry of
  `countryNames` is exactly that lookup (`Transform.CountryNamesAreCodeLookups`).
- `_.pick` leaves absent keys out. So only required keys that are present but
  falsy make the JSON loop skip an entry. An entry with no required keys at all
  passes the check (`Fallback.EmptyEntryPasses`). It is added under the key
  `"undefined"` when that key is still absent (`Fallback.FillDomain`).
- The filter tests only the timezone against `\N`. A row whose IATA field is
  `\N` is kept whenever its timezone is valid (`Dat.NullMarkerIataIsKept`).
- A table entry whose code is the empty string counts as unknown and is asked
  about again. Only truthy entries are never overwritten.
- Records added from `airports.json` are not checked for a truthy country code.

## Model

| member | source | states |
|---|---|---|
| `Dat.IsValidAirport` | makeAirports.js:21-23 | a row is valid exactly when its IATA code and its timezone are truthy and the timezone is not `\N`; a `\N` timezone is never valid |
| `Dat.FilterValid` | makeAirports.js:21-25 | every survivor has a non-empty IATA code and a timezone that is neither empty nor `\N`; a row survives exactly when it is valid, as often as it occurs |
| `Dat.FilterValidSingleton` | makeAirports.js:21-25 | a one-row table keeps its row exactly when the row is valid; with `Dat.FilterValidAppend` this fixes the filter's output |
| `Dat.FilterValidAppend` | makeAirports.js:25 | filtering distributes over concatenation, so survivors keep their input order |
| `Dat.NullMarkerIataIsKept` | makeAirports.js:22 | a row whose IATA field is the `\N` marker passes the filter whenever its timezone is neither empty nor `\N` |
| `Countries.First` | makeAirports.js:28 | the position of an element's first occurrence holds that element, and no earlier position does |
| `Countries.FirstOfExtension` | makeAirports.js:28 | appending an element does not move the first occurrence of an element already present |
| `Countries.Uniq` | makeAirports.js:28 | `_.uniq` keeps exactly the elements of its input, without repetitions |
| `Countries.UniqKeepsFirstOrder` | makeAirports.js:28 | `_.uniq` lists its elements in the order of their first occurrences in the input |
| `Countries.CountryColumn` | makeAirports.js:28 | `_.map(airports, 'country')` has one entry per airport, each the country name of the airport at the same position |
| `Countries.UniqColumnNames` | makeAirports.js:28 | the distinct names the loop visits are exactly the country names of the valid airports |
| `Countries.UniqOfDistinct` | makeAirports.js:28 | `_.uniq` of a sequence without repetitions is that sequence |
| `Countries.ResolveNames` | makeAirports.js:29-34 | the table afterwards has every name as a key; truthy entries are unchanged; a name is asked about exactly when its entry was falsy, and then holds the answer; every other entry is unchanged |
| `Countries.ResolveNamesAsksOnce` | makeAirports.js:28-34 | over distinct names, no name is asked about twice |
| `Countries.ResolveCountries` | makeAirports.js:28-34 | after the loop every country name of the valid airports is a key; the names asked are distinct, and are exactly the airports' names that had no truthy code; truthy entries are never overwritten |
| `Countries.ResolvedCountriesAreTruthy` | makeAirports.js:29-33 | when every answer is non-empty, every airport's country name has a truthy code afterwards |
| `OurAirports.Accumulate` | makeAirports.js:41-49 | the loop only adds keys; when both objects start with the same keys they end with the same keys; a true `hasScheduledService` entry stays true |
| `OurAirports.AccumulateAppend` | makeAirports.js:41-49 | running the loop over two sequences in turn is running it over their concatenation |
| `OurAirports.AccumulateKeys` | makeAirports.js:41-49 | both objects gain as keys exactly the non-empty `iata_code` values of the rows |
| `OurAirports.AccumulateScheduled` | makeAirports.js:45-46 | `hasScheduledService[k]` is true exactly when it was already true or some row with the non-empty code `k` has `scheduled_service` equal to `yes` |
| `OurAirports.ScheduledStaysTrue` | makeAirports.js:45-46 | once `hasScheduledService[k]` is true after a prefix of the rows, it is true after all of them |
| `OurAirports.AccumulateLastRegion` | makeAirports.js:48 | `states[k]` is the `iso_region` of the last row whose code is `k` |
| `OurAirports.AccumulateUntouched` | makeAirports.js:42-43 | rows that do not carry the non-empty code `k` leave both objects unchanged at `k` |
| `OurAirports.EmptyCodeRowChangesNothing` | makeAirports.js:43 | a row with an empty `iata_code` changes neither object, wherever it stands |
| `Js.ToLower` | makeAirports.js:58 | lower-casing keeps the length, leaves no upper-case letter, and maps each character by ASCII lower-casing |
| `Js.ToLowerIdempotent` | makeAirports.js:58 | lower-casing twice is lower-casing once |
| `Js.PropKey` | makeAirports.js:57 | `countryNames[airport.country]` uses the code as a property name: a string is its own property name; only the empty string gives the empty name, so `undefined` and `null` give non-empty names |
| `Js.Substr` | makeAirports.js:58 | `substr(start)` is what follows the first `start` characters, and is empty when the string is no longer than `start` |
| `Js.Or` | makeAirports.js:88 | JavaScript's logical or is its left operand when that is truthy and its right operand otherwise, so it is truthy exactly when either operand is |
| `Transform.StateOf` | makeAirports.js:58 | the state is null exactly when the region is falsy; otherwise it is a string: the region minus its first three characters, each lower-cased |
| `Transform.StateOfUsRegion` | makeAirports.js:58 | the region `US-CA` gives the state `ca` |
| `Transform.TransformRow` | makeAirports.js:54-62 | the flag is true exactly when `hasScheduledService` holds true for the code; the state is never `undefined`, and is a string exactly when `states` has a non-empty region for the code; `country` is a string exactly when the table has the country name; the record's property name is its IATA code |
| `Transform.NoteCountryName` | makeAirports.js:57 | `countryNames` gains the key for the code, which holds the old value or else the table's entry for that key; other keys and truthy values are unchanged |
| `Transform.NoteCountryNameAt` | makeAirports.js:57 | the same update seen from one key: a truthy value stays; a falsy value under the code's key becomes the table's entry; other keys are unchanged |
| `Transform.TransformedServiceFields` | makeAirports.js:54-58 | a record's flag is true exactly when some OurAirports row with its IATA code has scheduled service; its state comes from the last such row, or is null when there is none |
| `Transform.TransformAll` | makeAirports.js:53-63 | the map yields one record per row, in order, each the transform of its own row |
| `Transform.TransformCopiesDatFields` | makeAirports.js:55-56 | a record keeps its row's name, city, IATA code, coordinates and timezone; `countryName` is the raw country name, and `country` is the table's code for it |
| `Transform.CountryNamesAt` | makeAirports.js:57 | a truthy `countryNames[k]` is never replaced; otherwise a row whose code is `k` sets it to the table's entry for `k`; with no such row it is unchanged |
| `Transform.CountryNamesAreCodeLookups` | makeAirports.js:57 | from an empty object, every `countryNames[k]` equals the name-to-code table looked up with the code `k` |
| `Keying.KeyAll` | makeAirports.js:66-74 | no key is lost; every record is stored under its own IATA code and has a truthy country |
| `Keying.KeyAllDomain` | makeAirports.js:67-74 | a key is present afterwards exactly when it was before, or some record with a truthy country carries it |
| `Keying.HitIsKeyed` | makeAirports.js:68-73 | an eligible record's IATA code is a key afterwards |
| `Keying.KeyAllKeepsUnscheduled` | makeAirports.js:70-73 | when no eligible record for a key has scheduled service, a record already stored there stays |
| `Keying.KeyAllFirstKept` | makeAirports.js:70-73 | when no eligible record for a new key has scheduled service, the first eligible record is stored |
| `Keying.KeyAllLastScheduledWins` | makeAirports.js:70-73 | when some eligible record for a key has scheduled service, the last such record is stored, so the stored flag is true |
| `Fallback.PresentValues` | makeAirports.js:83 | `_.pick` keeps exactly the values of the present keys |
| `Fallback.PassesRequiredExactly` | makeAirports.js:81-85 | an entry passes exactly when none of its required keys is present with a null or empty value |
| `Fallback.EmptyEntryPasses` | makeAirports.js:83 | an entry with none of the required keys passes the check |
| `Fallback.Fill` | makeAirports.js:76-103 | existing keys are never replaced; every added record is stored under its own code |
| `Fallback.FillDomain` | makeAirports.js:79-86 | a key is present afterwards exactly when it was before, or some entry with that key passes the check |
| `Fallback.FromJson` | makeAirports.js:87-101 | the record takes `iata`, `name`, `city`, `latitude`, `longitude` and `timezone` from the entry's `code`, `name`, `city`, `lat`, `lon` and `tz`, and is stored under that code; `country` is the table's entry for the entry's country name; the state is null; it has scheduled service unless `direct_flights` is `'0'`; `countryName` is the truthy `countryNames` value for the code when there is one, and otherwise the entry's own country |
| `Fallback.FillFirstAdmitted` | makeAirports.js:87-101 | a new key holds the record built from the first passing entry with that key: state null, scheduled service unless `direct_flights` is `'0'`, `countryName` taken from `countryNames` or else the entry's own country |
| `Pipeline.FromDat` | makeAirports.js:21-74 | before the JSON loop, every stored record is under its own code, has a truthy country, and is one of the transformed airports |
| `Pipeline.KeyedFromAirports` | makeAirports.js:66-74 | starting from an empty object, every key belongs to an eligible record and every stored record is one of the records the loop saw |
| `Pipeline.MakeAirports` | makeAirports.js:76-105 | every final record is stored under its own code; records keyed from airports.dat are kept unchanged |
| `Pipeline.EveryValidAirportKeyed` | makeAirports.js:21-74 | when every answer is non-empty, each valid airports.dat row's code is a final key, and it holds the transform of a valid airports.dat row with that code |
| `Pipeline.ValidAirportIsKeyed` | makeAirports.js:29-33 | when every answer is non-empty, each valid row's code is a key before the JSON loop |
| `Pipeline.RowWithCodeIsKeyed` | makeAirports.js:67-72 | a row whose country name has a truthy code is keyed under its IATA code |
| `Pipeline.KeyedRecordComesFromDat` | makeAirports.js:53-74 | a record keyed before the JSON loop is the transform of a valid airports.dat row with that code |
| `Pipeline.KeyAllValueFrom` | makeAirports.js:70-73 | every stored record was already stored or is one of the records the loop saw |
| `Pipeline.LosAngelesExample` | makeAirports.js:53-74 | an airports.dat row for LAX and an OurAirports row with region `US-CA` and scheduled service give one record under `LAX`, with state `ca`, a true flag, the table's code and the raw country name |

## Left out

- File reads and CSV parsing (lines 14-19, 37-38) and the `require` of the data files (lines 8-9): these are I/O and a foreign library. The parsed rows, the JSON entries and the country table are parameters.
- The interactive question (line 31) is the parameter `ask`. It is a total function from a name to the string answered.
- The `--object` switch, `JSON.stringify` and the console output (lines 11, 107-117) are serialisation. List mode is `_.values(airportsKeyed)` (line 105). Maps here have no insertion order, so the order of that list is not modelled.
- Only the three OurAirports columns the code reads, and only the airports.json keys it reads, are modelled. Their values are strings, `null`, or absent. A JSON number would need its own value case.
- Property names that an object inherits from `Object.prototype` (such as `constructor`) are not modelled. Every lookup of a key that was never assigned yields `undefined`.
- `Transform.StateOf`: `substr(3)` counts UTF-16 code units, while the model counts characters. The two differ only when a character outside the Basic Multilingual Plane stands in the first three places. ISO 3166-2 region codes are ASCII, so that never happens for the data this reads.
- `Js.Substr`: counts characters rather than UTF-16 code units, for the same reason as `Transform.StateOf`.
- `Js.ToLower`: lower-cases ASCII letters only, because `toLowerCase`'s full Unicode case mapping is out of scope.
- Latitude and longitude pass through as opaque strings, as in the code. No numeric handling is modelled.

=== FILE: Countries.dfy ===
/**
 Country-name resolution (makeAirports.js lines 27-34): every distinct country
 name of the valid airports that the name-to-code table does not map to a truthy
 code is put to an interactive question, and the answer is stored in the table.
 The question is the parameter `ask`.
 */
module Countries {
  import opened Js
  import opened Dat

  predicate Distinct(xs: seq<string>) {
    forall i, j :: 0 <= i < j < |xs| ==> xs[i] != xs[j]
  }

  /** The index of the first occurrence of `x` in `xs`. */
  function First(xs: seq<string>, x: string): (n: nat)
    requires x in xs
    ensures n < |xs| && xs[n] == x
    ensures forall j :: 0 <= j < n ==> xs[j] != x
    decreases |xs|
  {
    if xs[0] == x then 0 else 1 + First(xs[1..], x)
  }

  /** Appending an element does not move the first occurrence of an earlier one. */
  lemma FirstOfExtension(init: seq<string>, last: string, y: string)
    requires y in init
    ensures y in init + [last] && First(init + [last], y) == First(init, y)
  {
    var xs := init + [last];
    var a, b := First(xs, y), First(init, y);
    assert xs[b] == y;
    assert a <= b;
    assert init[a] == y;
  }

  /** `_.uniq`: the distinct elements, each at its first occurrence. */
  function Uniq(xs: seq<string>): (r: seq<string>)
    ensures forall x :: x in r <==> x in xs
    ensures Distinct(r)
    decreases |xs|
  {
    if |xs| == 0 then []
    else
      var init := xs[..|xs| - 1];
      var last := xs[|xs| - 1];
      var u := Uniq(init);
      assert xs == init + [last];
      if last in u then u else u + [last]
  }

  /** `_.uniq` lists its elements in the order of their first occurrences. */
  lemma {:induction false} UniqKeepsFirstOrder(xs: seq<string>)
    ensures forall i, j :: 0 <= i < j < |Uniq(xs)| ==> First(xs, Uniq(xs)[i]) < First(xs, Uniq(xs)[j])
    decreases |xs|
  {
    if |xs| > 0 {
      var init := xs[..|xs| - 1];
      var last := xs[|xs| - 1];
      var u := Uniq(init);
      assert xs == init + [last];
      UniqKeepsFirstOrder(init);
      forall y | y in init
        ensures First(xs, y) == First(init, y)
      {
        FirstOfExtension(init, last, y);
      }
      if last !in u {
        assert First(xs, last) == |xs| - 1;
        forall i | 0 <= i < |u|
          ensures First(xs, u[i]) < First(xs, last)
        {
          assert u[i] in init;
        }
      }
    }
  }

  /** `_.uniq` leaves a sequence without repetitions as it is. */
  lemma {:induction false} UniqOfDistinct(xs: seq<string>)
    requires Distinct(xs)
    ensures Uniq(xs) == xs
    decreases |xs|
  {
    if |xs| > 0 {
      var init := xs[..|xs| - 1];
      UniqOfDistinct(init);
      assert xs[|xs| - 1] !in init;
      assert xs == init + [xs[|xs| - 1]];
    }
  }

  /** `_.map(airports, 'country')`: one country name per airport, in order. */
  function CountryColumn(airports: seq<DatRow>): (r: seq<string>)
    ensures |r| == |airports|
    ensures forall i :: 0 <= i < |airports| ==> r[i] == airports[i].country
    ensures forall c :: c in r <==> exists i :: 0 <= i < |airports| && airports[i].country == c
  {
    var r := seq(|airports|, i requires 0 <= i < |airports| => airports[i].country);
    assert forall i :: 0 <= i < |airports| ==> r[i] == airports[i].country;
    r
  }

  /** The name-to-code table after the loop, and the names put to the question, in order. */
  datatype Resolution = Resolution(table: map<string, string>, asked: seq<string>)

  /** The `countries.forEach` loop over `names`, starting from table `t0`. */
  function ResolveNames(t0: map<string, string>, names: seq<string>, ask: string -> string): (r: Resolution)
    ensures r.table.Keys == t0.Keys + set c | c in names
    ensures forall k :: k in t0 && t0[k] != "" ==> r.table[k] == t0[k]
    ensures forall k :: k in r.table && k !in r.asked ==> k in t0 && r.table[k] == t0[k]
    ensures forall k :: k in r.asked ==> k in names && !Truthy(Get(t0, k)) && r.table[k] == ask(k)
    ensures forall k :: k in names && !Truthy(Get(t0, k)) ==> k in r.asked
    decreases |names|
  {
    if |names| == 0 then Resolution(t0, [])
    else
      var init := names[..|names| - 1];
      var c := names[|names| - 1];
      var p := ResolveNames(t0, init, ask);
      assert names == init + [c];
      if Truthy(Get(p.table, c)) then p
      else Resolution(p.table[c := ask(c)], p.asked + [c])
  }

  /** Over distinct names the question is asked at most once per name. */
  lemma {:induction false} ResolveNamesAsksOnce(t0: map<string, string>, names: seq<string>, ask: string -> string)
    requires Distinct(names)
    ensures Distinct(ResolveNames(t0, names, ask).asked)
    decreases |names|
  {
    if |names| > 0 {
      var init := names[..|names| - 1];
      var c := names[|names| - 1];
      assert Distinct(init);
      ResolveNamesAsksOnce(t0, init, ask);
      var p := ResolveNames(t0, init, ask);
      assert names == init + [c];
      assert c !in p.asked by {
        assert c !in init;
      }
      assert Distinct(p.asked + [c]);
    }
  }

  /** The loop of lines 28-34 over the distinct country names of the valid airports. */
  function ResolveCountries(t0: map<string, string>, airports: seq<DatRow>, ask: string -> string): (r: Resolution)
    ensures r.table.Keys == t0.Keys + set i | 0 <= i < |airports| :: airports[i].country
    ensures forall k :: k in t0 && t0[k] != "" ==> r.table[k] == t0[k]
    ensures Distinct(r.asked)
    ensures forall c :: c in r.asked <==> c in CountryColumn(airports) && !Truthy(Get(t0, c))
    ensures forall c :: c in r.asked ==> r.table[c] == ask(c)
    ensures forall k :: k in r.table && k !in r.asked ==> k in t0 && r.table[k] == t0[k]
  {
    var names := Uniq(CountryColumn(airports));
    ResolveNamesAsksOnce(t0, names, ask);
    UniqColumnNames(airports);
    ResolveNames(t0, names, ask)
  }

  /** The distinct names put to the loop are exactly the airports' country names. */
  lemma UniqColumnNames(airports: seq<DatRow>)
    ensures (set c | c in Uniq(CountryColumn(airports))) == set i | 0 <= i < |airports| :: airports[i].country
  {
    var names := Uniq(CountryColumn(airports));
    forall c | c in names
      ensures c in set i | 0 <= i < |airports| :: airports[i].country
    {
      var i :| 0 <= i < |airports| && airports[i].country == c;
    }
  }

  /** When every answer is a non-empty code, every country name of the airports
      maps to a truthy code afterwards. */
  lemma ResolvedCountriesAreTruthy(t0: map<string, string>, airports: seq<DatRow>, ask: string -> string)
    requires forall c :: ask(c) != ""
    ensures forall i :: 0 <= i < |airports| ==>
              Truthy(Get(ResolveCountries(t0, airports, ask).table, airports[i].country))
  {
    var r := ResolveCountries(t0, airports, ask);
    forall i | 0 <= i < |airports|
      ensures Truthy(Get(r.table, airports[i].country))
    {
      var c := airports[i].country;
      assert CountryColumn(airports)[i] == c;
      if c !in r.asked {
        assert Truthy(Get(t0, c));
      }
    }
  }
}

=== FILE: Dat.dfy ===
/**
 Rows of the OpenFlights airports.dat table and the validity filter that starts
 the pipeline (makeAirports.js lines 14-25).
 */
module Dat {
  import opened Js

  /** One parsed row of airports.dat, one field per declared column. */
  datatype DatRow = DatRow(
    id: string, name: string, city: string, country: string,
    iata: string, icao: string, latitude: string, longitude: string,
    altitude: string, utcOffset: string, dst: string, timezone: string)

  /** The marker airports.dat writes for a missing value: a backslash and `N`. */
  const NullMarker: string := "\\N"

  /** `isValidAirport`: an IATA code and a timezone that is neither empty nor the null marker. */
  function IsValidAirport(e: DatRow): (b: bool)
    ensures b <==> Truthy(Str(e.iata)) && Truthy(Str(e.timezone)) && e.timezone != NullMarker
    ensures e.timezone == NullMarker ==> !b
  {
    e.iata != "" && e.timezone != "" && e.timezone != NullMarker
  }

  /** `readAirportsDat().filter(isValidAirport)`. */
  function FilterValid(rows: seq<DatRow>): (r: seq<DatRow>)
    ensures |r| <= |rows|
    ensures forall i :: 0 <= i < |r| ==>
              r[i].iata != "" && r[i].timezone != "" && r[i].timezone != NullMarker
    ensures forall x :: x in r <==> x in rows && IsValidAirport(x)
    ensures forall x :: multiset(r)[x] == if IsValidAirport(x) then multiset(rows)[x] else 0
  {
    if |rows| == 0 then []
    else
      var rest := FilterValid(rows[1..]);
      assert rows == [rows[0]] + rows[1..];
      if IsValidAirport(rows[0]) then [rows[0]] + rest else rest
  }

  /** Filtering distributes over concatenation, so the survivors keep their order. */
  lemma {:induction false} FilterValidAppend(a: seq<DatRow>, b: seq<DatRow>)
    ensures FilterValid(a + b) == FilterValid(a) + FilterValid(b)
  {
    if |a| == 0 {
      assert a + b == b;
    } else {
      assert (a + b)[1..] == a[1..] + b;
      FilterValidAppend(a[1..], b);
    }
  }

  /** A row survives exactly when it is valid. */
  lemma FilterValidSingleton(x: DatRow)
    ensures FilterValid([x]) == if IsValidAirport(x) then [x] else []
  {
    assert [x][1..] == [];
  }

  /** The filter only looks at the timezone for the null marker: a row whose IATA
      field is the marker itself is kept whenever its timezone is valid. */
  lemma NullMarkerIataIsKept(x: DatRow)
    requires x.iata == NullMarker && x.timezone != "" && x.timezone != NullMarker
    ensures FilterValid([x]) == [x]
  {
    FilterValidSingleton(x);
  }
}

=== FILE: Fallback.dfy ===
/**
 Filling in from airports.json (makeAirports.js lines 76-103): an entry whose
 code is not yet a key, and whose present required keys are all truthy, is added
 as a new record; an existing key is never replaced.
 */
module Fallback {
  import opened Js
  import opened Transform
  import opened Keying

  /** The keys of an airports.json entry the program reads; `Undefined` is an absent key. */
  datatype JsonAirport = JsonAirport(
    code: Val, lat: Val, lon: Val, name: Val, city: Val, country: Val, tz: Val,
    directFlights: Val)

  /** The values of the required keys `code, lat, lon, name, city, country, tz`. */
  function RequiredValues(e: JsonAirport): seq<Val> {
    [e.code, e.lat, e.lon, e.name, e.city, e.country, e.tz]
  }

  /** `_.values(_.pick(...))`: `_.pick` leaves absent keys out. */
  function PresentValues(vs: seq<Val>): (r: seq<Val>)
    ensures forall v :: v in r <==> v in vs && !v.Undefined?
    decreases |vs|
  {
    if |vs| == 0 then []
    else
      assert vs == [vs[0]] + vs[1..];
      (if vs[0].Undefined? then [] else [vs[0]]) + PresentValues(vs[1..])
  }

  /** `_.every(values)`: every value is truthy. */
  predicate EveryTruthy(vs: seq<Val>) {
    forall i :: 0 <= i < |vs| ==> Truthy(vs[i])
  }

  /** The check on line 83 lets the entry through. */
  predicate PassesRequired(e: JsonAirport) {
    EveryTruthy(PresentValues(RequiredValues(e)))
  }

  /** An entry is skipped exactly when some required key is present but falsy:
      null or the empty string. Absent required keys never cause a skip. */
  lemma PassesRequiredExactly(e: JsonAirport)
    ensures PassesRequired(e) <==>
            forall v :: v in RequiredValues(e) ==> v != Null && v != Str("")
  {
    var p := PresentValues(RequiredValues(e));
    if PassesRequired(e) {
      forall v | v in RequiredValues(e)
        ensures v != Null && v != Str("")
      {
        if !v.Undefined? {
          assert v in p;
        }
      }
    }
    if forall v :: v in RequiredValues(e) ==> v != Null && v != Str("") {
      forall i | 0 <= i < |p|
        ensures Truthy(p[i])
      {
        assert p[i] in p;
      }
    }
  }

  /** An entry with none of the required keys passes the check. */
  lemma EmptyEntryPasses(flights: Val)
    ensures PassesRequired(JsonAirport(Undefined, Undefined, Undefined, Undefined, Undefined,
                                       Undefined, Undefined, flights))
  {
    PassesRequiredExactly(JsonAirport(Undefined, Undefined, Undefined, Undefined, Undefined,
                                      Undefined, Undefined, flights));
  }

  /** The record built on lines 87-101. */
  function FromJson(e: JsonAirport, nameToCode: map<string, string>, countryNames: map<string, Val>): (a: Airport)
    ensures KeyOf(a) == PropKey(e.code)
    ensures a.iata == e.code && a.name == e.name && a.city == e.city
    ensures a.latitude == e.lat && a.longitude == e.lon && a.timezone == e.tz
    ensures a.country == Get(nameToCode, PropKey(e.country))
    ensures a.state == Null
    ensures a.hasScheduledService <==> e.directFlights != Str("0")
    ensures Eligible(a) <==> Truthy(Get(nameToCode, PropKey(e.country)))
    ensures Truthy(a.countryName) <==> Truthy(Lookup(countryNames, PropKey(a.country))) || Truthy(e.country)
    ensures a.countryName == e.country || a.countryName == Lookup(countryNames, PropKey(a.country))
    ensures Truthy(Lookup(countryNames, PropKey(a.country))) ==>
            a.countryName == Lookup(countryNames, PropKey(a.country))
  {
    var country := Get(nameToCode, PropKey(e.country));
    Airport(
      name := e.name,
      city := e.city,
      country := country,
      iata := e.code,
      latitude := e.lat,
      longitude := e.lon,
      timezone := e.tz,
      hasScheduledService := e.directFlights != Str("0"),
      countryName := Or(Lookup(countryNames, PropKey(country)), e.country),
      state := Null)
  }

  /** One call of the `forEach` callback. */
  function FillStep(m: map<string, Airport>, e: JsonAirport, nameToCode: map<string, string>,
                    countryNames: map<string, Val>): map<string, Airport> {
    var k := PropKey(e.code);
    if k in m || !PassesRequired(e) then m
    else m[k := FromJson(e, nameToCode, countryNames)]
  }

  /** The `airportsJSON.forEach` loop, starting from `m`. */
  function Fill(m: map<string, Airport>, entries: seq<JsonAirport>, nameToCode: map<string, string>,
                countryNames: map<string, Val>): (r: map<string, Airport>)
    ensures forall k :: k in m ==> k in r && r[k] == m[k]
    ensures forall k :: k in r ==> KeyOf(r[k]) == k || (k in m && r[k] == m[k])
    decreases |entries|
  {
    if |entries| == 0 then m
    else Fill(FillStep(m, entries[0], nameToCode, countryNames), entries[1..], nameToCode, countryNames)
  }

  /** Entry `i` has key `k` and passes the required-key check. */
  predicate Admits(entries: seq<JsonAirport>, k: string, i: int) {
    0 <= i < |entries| && PropKey(entries[i].code) == k && PassesRequired(entries[i])
  }

  /** A key is present afterwards exactly when it was before or an entry with that
      key passes the check. */
  lemma {:induction false} FillDomain(m: map<string, Airport>, entries: seq<JsonAirport>,
                                      nameToCode: map<string, string>, countryNames: map<string, Val>, k: string)
    ensures k in Fill(m, entries, nameToCode, countryNames) <==> k in m || exists i :: Admits(entries, k, i)
    decreases |entries|
  {
    if |entries| > 0 {
      var m' := FillStep(m, entries[0], nameToCode, countryNames);
      FillDomain(m', entries[1..], nameToCode, countryNames, k);
      assert Fill(m, entries, nameToCode, countryNames) == Fill(m', entries[1..], nameToCode, countryNames);
      if exists i :: Admits(entries[1..], k, i) {
        var i :| Admits(entries[1..], k, i);
        assert Admits(entries, k, i + 1);
      }
      if exists i :: Admits(entries, k, i) {
        var i :| Admits(entries, k, i);
        if i > 0 {
          assert Admits(entries[1..], k, i - 1);
        }
      } else {
        assert !Admits(entries, k, 0);
      }
    }
  }

  /** A new key receives the record built from the first entry with that key that
      passes the check: no state, scheduled service unless `direct_flights` is
      `'0'`, and the country name from `countryNames` or else the entry's own. */
  lemma {:induction false} FillFirstAdmitted(m: map<string, Airport>, entries: seq<JsonAirport>,
                                             nameToCode: map<string, string>, countryNames: map<string, Val>,
                                             k: string, i: int)
    requires k !in m
    requires Admits(entries, k, i)
    requires forall j :: 0 <= j < i ==> !Admits(entries, k, j)
    ensures k in Fill(m, entries, nameToCode, countryNames)
    ensures Fill(m, entries, nameToCode, countryNames)[k] == FromJson(entries[i], nameToCode, countryNames)
    ensures Fill(m, entries, nameToCode, countryNames)[k].state == Null
    ensures Fill(m, entries, nameToCode, countryNames)[k].hasScheduledService <==>
            entries[i].directFlights != Str("0")
    ensures Fill(m, entries, nameToCode, countryNames)[k].iata == entries[i].code
    ensures Fill(m, entries, nameToCode, countryNames)[k].countryName ==
            Or(Lookup(countryNames, PropKey(Get(nameToCode, PropKey(entries[i].country)))), entries[i].country)
    decreases |entries|
  {
    var m' := FillStep(m, entries[0], nameToCode, countryNames);
    if i > 0 {
      assert !Admits(entries, k, 0);
      forall j | 0 <= j < i - 1
        ensures !Admits(entries[1..], k, j)
      {
        assert !Admits(entries, k, j + 1);
      }
      FillFirstAdmitted(m', entries[1..], nameToCode, countryNames, k, i - 1);
    }
  }
}

=== FILE: Js.dfy ===
/**
 The small part of JavaScript's value semantics that makeAirports.js relies on:
 values that are `undefined`, `null` or a string, truthiness, the coercion of a
 value to an object property name, `||`, `String.prototype.substr` and
 `String.prototype.toLowerCase`.
 */
module Js {

  /** A JavaScript value as it occurs in this program. */
  datatype Val = Undefined | Null | Str(s: string)

  /** JavaScript truthiness on these values: only a non-empty string is truthy. */
  predicate Truthy(v: Val) {
    v.Str? && v.s != ""
  }

  /** `a || b`: the first operand when it is truthy, otherwise the second. */
  function Or(a: Val, b: Val): (r: Val)
    ensures Truthy(r) <==> Truthy(a) || Truthy(b)
    ensures r == a || r == b
    ensures Truthy(a) ==> r == a
    ensures !Truthy(a) ==> r == b
  {
    if Truthy(a) then a else b
  }

  /** The property name `obj[v]` uses: `String(v)`. A string is its own name;
      `undefined` and `null` become the non-empty names `"undefined"` and `"null"`. */
  function PropKey(v: Val): (r: string)
    ensures v.Str? ==> r == v.s
    ensures r == "" <==> v == Str("")
  {
    match v
    case Undefined => "undefined"
    case Null => "null"
    case Str(s) => s
  }

  /** `obj[k]` on an object whose own values are strings. */
  function Get(m: map<string, string>, k: string): Val {
    if k in m then Str(m[k]) else Undefined
  }

  /** `obj[k]` on an object whose own values are JavaScript values. */
  function Lookup(m: map<string, Val>, k: string): Val {
    if k in m then m[k] else Undefined
  }

  predicate IsUpper(c: char) {
    'A' <= c <= 'Z'
  }

  /** `toLowerCase` on one character (ASCII letters only). */
  function LowerChar(c: char): (r: char)
    ensures !IsUpper(r)
    ensures IsUpper(c) ==> r as int - c as int == 'a' as int - 'A' as int
    ensures !IsUpper(c) ==> r == c
  {
    if IsUpper(c) then (c as int - 'A' as int + 'a' as int) as char else c
  }

  /** `s.toLowerCase()` (ASCII letters only). */
  function ToLower(s: string): (r: string)
    ensures |r| == |s|
    ensures forall i :: 0 <= i < |r| ==> !IsUpper(r[i])
    ensures forall i :: 0 <= i < |r| ==> LowerChar(s[i]) == r[i]
  {
    seq(|s|, i requires 0 <= i < |s| => LowerChar(s[i]))
  }

  /** `s.substr(start)` for a non-negative start: the characters from `start` on,
      or the empty string when `s` is shorter. */
  function Substr(s: string, start: nat): (r: string)
    ensures start <= |s| ==> s == s[..start] + r
    ensures start >= |s| ==> r == ""
  {
    if start <= |s| then s[start..] else ""
  }

  /** Lower-casing an already lower-cased string changes nothing. */
  lemma ToLowerIdempotent(s: string)
    ensures ToLower(ToLower(s)) == ToLower(s)
  {
    var t := ToLower(s);
    assert forall i :: 0 <= i < |t| ==> LowerChar(t[i]) == t[i];
  }
}

=== FILE: Keying.dfy ===
/**
 Keying the transformed airports by IATA code (makeAirports.js lines 65-74):
 records without a truthy country code are dropped; a record is stored when its
 code is not yet a key, or replaces the stored one when it has scheduled service.
 */
module Keying {
  import opened Js
  import opened Transform

  /** `if (!airport.country) return;` lets only these records through. */
  predicate Eligible(a: Airport) {
    Truthy(a.country)
  }

  /** The property name the record is stored under. */
  function KeyOf(a: Airport): string {
    PropKey(a.iata)
  }

  /** Every record is stored under its own IATA code and has a truthy country. */
  predicate WellKeyed(m: map<string, Airport>) {
    forall k :: k in m ==> KeyOf(m[k]) == k && Eligible(m[k])
  }

  /** One call of the `forEach` callback. */
  function KeyStep(m: map<string, Airport>, a: Airport): map<string, Airport> {
    if !Eligible(a) then m
    else if KeyOf(a) !in m || a.hasScheduledService then m[KeyOf(a) := a]
    else m
  }

  /** The `forEach` loop over `airports`, starting from `m`. */
  function KeyAll(m: map<string, Airport>, airports: seq<Airport>): (r: map<string, Airport>)
    ensures m.Keys <= r.Keys
    ensures WellKeyed(m) ==> WellKeyed(r)
    decreases |airports|
  {
    if |airports| == 0 then m else KeyAll(KeyStep(m, airports[0]), airports[1..])
  }

  /** Record `i` is eligible and has the key `k`. */
  predicate Hits(airports: seq<Airport>, k: string, i: int) {
    0 <= i < |airports| && Eligible(airports[i]) && KeyOf(airports[i]) == k
  }

  /** Record `i` is the first eligible record with key `k`. */
  predicate IsFirstHit(airports: seq<Airport>, k: string, i: int) {
    Hits(airports, k, i) && forall i' :: 0 <= i' < i ==> !Hits(airports, k, i')
  }

  /** Record `i` is the last eligible record with key `k` that has scheduled service. */
  predicate IsLastScheduledHit(airports: seq<Airport>, k: string, i: int) {
    && Hits(airports, k, i) && airports[i].hasScheduledService
    && forall i' :: i < i' < |airports| ==> !(Hits(airports, k, i') && airports[i'].hasScheduledService)
  }

  /** No eligible record with key `k` has scheduled service. */
  predicate NoneScheduled(airports: seq<Airport>, k: string) {
    forall i :: 0 <= i < |airports| && Hits(airports, k, i) ==> !airports[i].hasScheduledService
  }

  /** A key is present afterwards exactly when it was before or an eligible record carries it. */
  lemma {:induction false} KeyAllDomain(m: map<string, Airport>, airports: seq<Airport>, k: string)
    ensures k in KeyAll(m, airports) <==> k in m || exists i :: Hits(airports, k, i)
    decreases |airports|
  {
    if |airports| > 0 {
      var m' := KeyStep(m, airports[0]);
      KeyAllDomain(m', airports[1..], k);
      assert KeyAll(m, airports) == KeyAll(m', airports[1..]);
      if exists i :: Hits(airports[1..], k, i) {
        var i :| Hits(airports[1..], k, i);
        assert Hits(airports, k, i + 1);
      }
      if exists i :: Hits(airports, k, i) {
        var i :| Hits(airports, k, i);
        if i > 0 {
          assert Hits(airports[1..], k, i - 1);
        }
      } else {
        assert !Hits(airports, k, 0);
      }
    }
  }

  /** An eligible record's key is present afterwards. */
  lemma HitIsKeyed(m: map<string, Airport>, airports: seq<Airport>, k: string, i: int)
    requires Hits(airports, k, i)
    ensures k in KeyAll(m, airports)
  {
    KeyAllDomain(m, airports, k);
  }

  /** With no scheduled record for `k`, a record already stored under `k` stays. */
  lemma {:induction false} KeyAllKeepsUnscheduled(m: map<string, Airport>, airports: seq<Airport>, k: string)
    requires k in m
    requires NoneScheduled(airports, k)
    ensures KeyAll(m, airports)[k] == m[k]
    decreases |airports|
  {
    if |airports| > 0 {
      var m' := KeyStep(m, airports[0]);
      assert Hits(airports, k, 0) ==> !airports[0].hasScheduledService;
      forall i | 0 <= i < |airports[1..]| && Hits(airports[1..], k, i)
        ensures !airports[1..][i].hasScheduledService
      {
        assert Hits(airports, k, i + 1);
      }
      KeyAllKeepsUnscheduled(m', airports[1..], k);
    }
  }

  /** With no scheduled record for a new key `k`, the first eligible record is kept. */
  lemma {:induction false} KeyAllFirstKept(m: map<string, Airport>, airports: seq<Airport>, k: string, i: int)
    requires k !in m
    requires NoneScheduled(airports, k)
    requires IsFirstHit(airports, k, i)
    ensures k in KeyAll(m, airports)
    ensures KeyAll(m, airports)[k] == airports[i]
    decreases |airports|
  {
    var m' := KeyStep(m, airports[0]);
    forall j | 0 <= j < |airports[1..]| && Hits(airports[1..], k, j)
      ensures !airports[1..][j].hasScheduledService
    {
      assert Hits(airports, k, j + 1);
    }
    if i == 0 {
      KeyAllKeepsUnscheduled(m', airports[1..], k);
    } else {
      assert !Hits(airports, k, 0);
      assert IsFirstHit(airports[1..], k, i - 1) by {
        forall j | 0 <= j < i - 1
          ensures !Hits(airports[1..], k, j)
        {
          assert !Hits(airports, k, j + 1);
        }
      }
      KeyAllFirstKept(m', airports[1..], k, i - 1);
    }
  }

  /** When some eligible record for `k` has scheduled service, the last such record wins. */
  lemma {:induction false} KeyAllLastScheduledWins(m: map<string, Airport>, airports: seq<Airport>, k: string, i: int)
    requires IsLastScheduledHit(airports, k, i)
    ensures k in KeyAll(m, airports)
    ensures KeyAll(m, airports)[k] == airports[i]
    ensures KeyAll(m, airports)[k].hasScheduledService
    decreases |airports|
  {
    var m' := KeyStep(m, airports[0]);
    if i == 0 {
      forall j | 0 <= j < |airports[1..]| && Hits(airports[1..], k, j)
        ensures !airports[1..][j].hasScheduledService
      {
        assert !(Hits(airports, k, j + 1) && airports[j + 1].hasScheduledService);
      }
      KeyAllKeepsUnscheduled(m', airports[1..], k);
    } else {
      assert IsLastScheduledHit(airports[1..], k, i - 1) by {
        forall j | i - 1 < j < |airports[1..]|
          ensures !(Hits(airports[1..], k, j) && airports[1..][j].hasScheduledService)
        {
          assert !(Hits(airports, k, j + 1) && airports[j + 1].hasScheduledService);
        }
      }
      KeyAllLastScheduledWins(m', airports[1..], k, i - 1);
    }
  }
}

=== FILE: OurAirports.dfy ===
/**
 The OurAirports accumulation (makeAirports.js lines 36-49): two objects keyed by
 IATA code, `hasScheduledService` (an OR over the rows with that code) and
 `states` (the `iso_region` of the last row with that code).
 */
module OurAirports {
  import opened Js

  /** The three columns of an OurAirports row the program reads. */
  datatype OurRow = OurRow(iataCode: string, scheduledService: string, isoRegion: string)

  /** The `hasScheduledService` and `states` objects. */
  datatype Service = Service(scheduled: map<string, bool>, states: map<string, string>)

  const NoService := Service(map[], map[])

  /** `!!m[k]` on an object of booleans. */
  predicate Flag(m: map<string, bool>, k: string) {
    k in m && m[k]
  }

  /** One call of the `forEach` callback. */
  function ServiceStep(acc: Service, row: OurRow): Service {
    var iata := row.iataCode;
    if iata == "" then acc
    else
      Service(acc.scheduled[iata := Flag(acc.scheduled, iata) || row.scheduledService == "yes"],
              acc.states[iata := row.isoRegion])
  }

  /** The `forEach` loop over `rows`, starting from `acc`. */
  function Accumulate(acc: Service, rows: seq<OurRow>): (r: Service)
    ensures acc.scheduled.Keys <= r.scheduled.Keys && acc.states.Keys <= r.states.Keys
    ensures acc.scheduled.Keys == acc.states.Keys ==> r.scheduled.Keys == r.states.Keys
    ensures forall k :: Flag(acc.scheduled, k) ==> Flag(r.scheduled, k)
    decreases |rows|
  {
    if |rows| == 0 then acc else Accumulate(ServiceStep(acc, rows[0]), rows[1..])
  }

  /** Row `j` carries the non-empty code `k`. */
  predicate HasCode(rows: seq<OurRow>, k: string, j: int) {
    0 <= j < |rows| && k != "" && rows[j].iataCode == k
  }

  /** Row `j` is the last row carrying the non-empty code `k`. */
  predicate IsLastWithCode(rows: seq<OurRow>, k: string, j: int) {
    HasCode(rows, k, j) && forall j' :: j < j' < |rows| ==> !HasCode(rows, k, j')
  }

  /** Splitting the rows splits the loop. */
  lemma {:induction false} AccumulateAppend(acc: Service, a: seq<OurRow>, b: seq<OurRow>)
    ensures Accumulate(acc, a + b) == Accumulate(Accumulate(acc, a), b)
    decreases |a|
  {
    if |a| == 0 {
      assert a + b == b;
    } else {
      assert (a + b)[1..] == a[1..] + b;
      AccumulateAppend(ServiceStep(acc, a[0]), a[1..], b);
    }
  }

  /** Both objects gain exactly the non-empty codes of the rows as keys. */
  lemma {:induction false} AccumulateKeys(acc: Service, rows: seq<OurRow>, k: string)
    ensures k in Accumulate(acc, rows).scheduled <==> k in acc.scheduled || exists j :: HasCode(rows, k, j)
    ensures k in Accumulate(acc, rows).states <==> k in acc.states || exists j :: HasCode(rows, k, j)
    decreases |rows|
  {
    if |rows| > 0 {
      var acc' := ServiceStep(acc, rows[0]);
      AccumulateKeys(acc', rows[1..], k);
      assert Accumulate(acc, rows) == Accumulate(acc', rows[1..]);
      if exists j :: HasCode(rows[1..], k, j) {
        var j :| HasCode(rows[1..], k, j);
        assert HasCode(rows, k, j + 1);
      }
      if exists j :: HasCode(rows, k, j) {
        var j :| HasCode(rows, k, j);
        if j > 0 {
          assert HasCode(rows[1..], k, j - 1);
        } else {
          assert k in acc'.scheduled && k in acc'.states;
        }
      } else {
        assert !HasCode(rows, k, 0);
      }
    }
  }

  /** `hasScheduledService[k]` is true exactly when it already was, or some row with
      the non-empty code `k` says `scheduled_service` is `yes`. */
  lemma {:induction false} AccumulateScheduled(acc: Service, rows: seq<OurRow>, k: string)
    ensures Flag(Accumulate(acc, rows).scheduled, k) <==>
            Flag(acc.scheduled, k) || exists j :: HasCode(rows, k, j) && rows[j].scheduledService == "yes"
    decreases |rows|
  {
    if |rows| > 0 {
      var acc' := ServiceStep(acc, rows[0]);
      AccumulateScheduled(acc', rows[1..], k);
      if exists j :: HasCode(rows[1..], k, j) && rows[1..][j].scheduledService == "yes" {
        var j :| HasCode(rows[1..], k, j) && rows[1..][j].scheduledService == "yes";
        assert HasCode(rows, k, j + 1) && rows[j + 1].scheduledService == "yes";
      }
      if exists j :: HasCode(rows, k, j) && rows[j].scheduledService == "yes" {
        var j :| HasCode(rows, k, j) && rows[j].scheduledService == "yes";
        if j > 0 {
          assert HasCode(rows[1..], k, j - 1) && rows[1..][j - 1].scheduledService == "yes";
        }
      }
    }
  }

  /** Once `hasScheduledService[k]` is true, no later row makes it false. */
  lemma ScheduledStaysTrue(acc: Service, rows: seq<OurRow>, n: nat, k: string)
    requires n <= |rows|
    requires Flag(Accumulate(acc, rows[..n]).scheduled, k)
    ensures Flag(Accumulate(acc, rows).scheduled, k)
  {
    assert rows == rows[..n] + rows[n..];
    AccumulateAppend(acc, rows[..n], rows[n..]);
    AccumulateScheduled(Accumulate(acc, rows[..n]), rows[n..], k);
  }

  /** `states[k]` is the `iso_region` of the last row carrying `k`. */
  lemma {:induction false} AccumulateLastRegion(acc: Service, rows: seq<OurRow>, k: string, j: int)
    requires IsLastWithCode(rows, k, j)
    ensures k in Accumulate(acc, rows).states
    ensures Accumulate(acc, rows).states[k] == rows[j].isoRegion
    decreases |rows|
  {
    var acc' := ServiceStep(acc, rows[0]);
    if j == 0 {
      forall j' | 0 <= j' < |rows[1..]|
        ensures !HasCode(rows[1..], k, j')
      {
        assert !HasCode(rows, k, j' + 1);
      }
      AccumulateUntouched(acc', rows[1..], k);
    } else {
      assert IsLastWithCode(rows[1..], k, j - 1) by {
        forall j' | j - 1 < j' < |rows[1..]|
          ensures !HasCode(rows[1..], k, j')
        {
          assert !HasCode(rows, k, j' + 1);
        }
      }
      AccumulateLastRegion(acc', rows[1..], k, j - 1);
    }
  }

  /** Rows that do not carry `k` leave both objects unchanged at `k`; in particular
      rows with an empty code change nothing. */
  lemma {:induction false} AccumulateUntouched(acc: Service, rows: seq<OurRow>, k: string)
    requires forall j :: 0 <= j < |rows| ==> !HasCode(rows, k, j)
    ensures k in Accumulate(acc, rows).states <==> k in acc.states
    ensures k in acc.states ==> Accumulate(acc, rows).states[k] == acc.states[k]
    ensures k in Accumulate(acc, rows).scheduled <==> k in acc.scheduled
    ensures k in acc.scheduled ==> Accumulate(acc, rows).scheduled[k] == acc.scheduled[k]
    decreases |rows|
  {
    if |rows| > 0 {
      assert !HasCode(rows, k, 0);
      forall j | 0 <= j < |rows[1..]|
        ensures !HasCode(rows[1..], k, j)
      {
        assert !HasCode(rows, k, j + 1);
      }
      AccumulateUntouched(ServiceStep(acc, rows[0]), rows[1..], k);
    }
  }

  /** A row with an empty `iata_code` changes neither object, wherever it stands. */
  lemma EmptyCodeRowChangesNothing(acc: Service, a: seq<OurRow>, row: OurRow, b: seq<OurRow>)
    requires row.iataCode == ""
    ensures Accumulate(acc, a + [row] + b) == Accumulate(acc, a + b)
  {
    assert a + [row] + b == a + ([row] + b);
    AccumulateAppend(acc, a, [row] + b);
    AccumulateAppend(acc, a, b);
    assert ([row] + b)[1..] == b;
  }
}

=== FILE: Pipeline.dfy ===
/**
 The whole of makeAirports.js from the parsed inputs to `airportsKeyed`, with the
 file contents and the interactive question as parameters.
 */
module Pipeline {
  import opened Js
  import opened Dat
  import opened Countries
  import opened OurAirports
  import opened Transform
  import opened Keying
  import opened Fallback

  /** The state of the program just before the airports.json loop. */
  datatype DatStage = DatStage(resolution: Resolution, transformed: Transformed, keyed: map<string, Airport>)

  /** Lines 21-74: filter, resolve countries, accumulate OurAirports, transform, key. */
  function FromDat(dat: seq<DatRow>, nameToCode: map<string, string>, ask: string -> string,
                   our: seq<OurRow>): (s: DatStage)
    ensures WellKeyed(s.keyed)
    ensures forall k :: k in s.keyed ==> exists i :: Hits(s.transformed.airports, k, i)
    ensures forall k :: k in s.keyed ==> s.keyed[k] in s.transformed.airports
  {
    var valid := FilterValid(dat);
    var res := ResolveCountries(nameToCode, valid, ask);
    var t := TransformAll(valid, Accumulate(NoService, our), res.table, map[]);
    var keyed := KeyAll(map[], t.airports);
    KeyedFromAirports(t.airports);
    DatStage(res, t, keyed)
  }

  /** `airportsKeyed` at line 105. */
  function MakeAirports(dat: seq<DatRow>, nameToCode: map<string, string>, ask: string -> string,
                        our: seq<OurRow>, json: seq<JsonAirport>): (r: map<string, Airport>)
    ensures forall k :: k in r ==> KeyOf(r[k]) == k
    ensures forall k :: k in FromDat(dat, nameToCode, ask, our).keyed ==>
              k in r && r[k] == FromDat(dat, nameToCode, ask, our).keyed[k]
  {
    var s := FromDat(dat, nameToCode, ask, our);
    Fill(s.keyed, json, s.resolution.table, s.transformed.countryNames)
  }

  /** With an answer for every unknown country, every valid airports.dat row has
      its IATA code as a key, holding a record built from a valid airports.dat row
      with that code rather than from airports.json. */
  lemma EveryValidAirportKeyed(dat: seq<DatRow>, nameToCode: map<string, string>, ask: string -> string,
                               our: seq<OurRow>, json: seq<JsonAirport>, x: DatRow)
    requires forall c :: ask(c) != ""
    requires x in dat && IsValidAirport(x)
    ensures x.iata in MakeAirports(dat, nameToCode, ask, our, json)
    ensures exists v :: v in dat && IsValidAirport(v) && v.iata == x.iata &&
              MakeAirports(dat, nameToCode, ask, our, json)[x.iata] ==
              TransformRow(v, Accumulate(NoService, our), FromDat(dat, nameToCode, ask, our).resolution.table)
  {
    var s := FromDat(dat, nameToCode, ask, our);
    ValidAirportIsKeyed(dat, nameToCode, ask, our, x);
    KeyedRecordComesFromDat(dat, nameToCode, ask, our, x.iata);
  }

  /** The eligibility half: a valid row's record has a truthy country code. */
  lemma ValidAirportIsKeyed(dat: seq<DatRow>, nameToCode: map<string, string>, ask: string -> string,
                            our: seq<OurRow>, x: DatRow)
    requires forall c :: ask(c) != ""
    requires x in dat && IsValidAirport(x)
    ensures x.iata in FromDat(dat, nameToCode, ask, our).keyed
  {
    var valid := FilterValid(dat);
    var res := ResolveCountries(nameToCode, valid, ask);
    assert x in valid;
    var i :| 0 <= i < |valid| && valid[i] == x;
    ResolvedCountriesAreTruthy(nameToCode, valid, ask);
    RowWithCodeIsKeyed(valid, res.table, Accumulate(NoService, our), i);
  }

  /** A row whose country name has a truthy code ends up as a key. */
  lemma RowWithCodeIsKeyed(valid: seq<DatRow>, table: map<string, string>, svc: Service, i: int)
    requires 0 <= i < |valid|
    requires Truthy(Get(table, valid[i].country))
    ensures valid[i].iata in KeyAll(map[], TransformAll(valid, svc, table, map[]).airports)
  {
    var t := TransformAll(valid, svc, table, map[]);
    assert t.airports[i] == TransformRow(valid[i], svc, table);
    assert Hits(t.airports, valid[i].iata, i);
    HitIsKeyed(map[], t.airports, valid[i].iata, i);
  }

  /** The provenance half: a record stored by the keying loop is the transform of a
      valid airports.dat row with that code. */
  lemma KeyedRecordComesFromDat(dat: seq<DatRow>, nameToCode: map<string, string>, ask: string -> string,
                                our: seq<OurRow>, k: string)
    requires k in FromDat(dat, nameToCode, ask, our).keyed
    ensures exists v :: v in dat && IsValidAirport(v) && v.iata == k &&
              FromDat(dat, nameToCode, ask, our).keyed[k] ==
              TransformRow(v, Accumulate(NoService, our), FromDat(dat, nameToCode, ask, our).resolution.table)
  {
    var valid := FilterValid(dat);
    var s := FromDat(dat, nameToCode, ask, our);
    var airports := s.transformed.airports;
    KeyAllValueFrom(map[], airports, k);
    var n :| 0 <= n < |airports| && s.keyed[k] == airports[n];
    var v := valid[n];
    assert v in valid;
    assert v in dat && IsValidAirport(v);
    assert s.keyed[k] == TransformRow(v, Accumulate(NoService, our), s.resolution.table);
    assert KeyOf(s.keyed[k]) == k;
  }

  /** Every stored record is one of the airports the loop saw. */
  lemma {:induction false} KeyAllValueFrom(m: map<string, Airport>, airports: seq<Airport>, k: string)
    requires k in KeyAll(m, airports)
    ensures (k in m && KeyAll(m, airports)[k] == m[k]) ||
            exists n :: 0 <= n < |airports| && KeyAll(m, airports)[k] == airports[n]
    decreases |airports|
  {
    if |airports| > 0 {
      var m' := KeyStep(m, airports[0]);
      KeyAllValueFrom(m', airports[1..], k);
      if exists n :: 0 <= n < |airports[1..]| && KeyAll(m', airports[1..])[k] == airports[1..][n] {
        var n :| 0 <= n < |airports[1..]| && KeyAll(m', airports[1..])[k] == airports[1..][n];
        assert KeyAll(m, airports)[k] == airports[n + 1];
      } else if !(k in m && KeyAll(m, airports)[k] == m[k]) {
        assert KeyAll(m, airports)[k] == airports[0];
      }
    }
  }

  /** Starting from nothing, every stored record is an eligible record the loop saw. */
  lemma KeyedFromAirports(airports: seq<Airport>)
    ensures forall k :: k in KeyAll(map[], airports) ==> exists i :: Hits(airports, k, i)
    ensures forall k :: k in KeyAll(map[], airports) ==> KeyAll(map[], airports)[k] in airports
  {
    forall k | k in KeyAll(map[], airports)
      ensures (exists i :: Hits(airports, k, i)) && KeyAll(map[], airports)[k] in airports
    {
      KeyAllDomain(map[], airports, k);
      KeyAllValueFrom(map[], airports, k);
    }
  }

  /** The Los Angeles example: an airports.dat row for LAX and an OurAirports row
      with region `US-CA` and scheduled service give one record under `LAX`. */
  lemma LosAngelesExample()
    ensures
      var dat := [DatRow("3484", "Los Angeles Intl", "Los Angeles", "United States", "LAX", "KLAX",
                         "33.942536", "-118.408075", "126", "-8", "A", "America/Los_Angeles")];
      var our := [OurRow("LAX", "yes", "US-CA")];
      var r := MakeAirports(dat, map["United States" := "US"], c => "XX", our, []);
      && "LAX" in r
      && r["LAX"].state == Str("ca")
      && r["LAX"].hasScheduledService
      && r["LAX"].country == Str("US")
      && r["LAX"].countryName == Str("United States")
      && r["LAX"].timezone == Str("America/Los_Angeles")
  {
    var row := DatRow("3484", "Los Angeles Intl", "Los Angeles", "United States", "LAX", "KLAX",
                      "33.942536", "-118.408075", "126", "-8", "A", "America/Los_Angeles");
    var dat := [row];
    var our := [OurRow("LAX", "yes", "US-CA")];
    var table := map["United States" := "US"];
    var ask: string -> string := c => "XX";
    FilterValidSingleton(row);
    var s := FromDat(dat, table, ask, our);
    assert s.resolution.table == table;
    var svc := Accumulate(NoService, our);
    assert svc == Service(map["LAX" := true], map["LAX" := "US-CA"]);
    StateOfUsRegion();
    var a := TransformRow(row, svc, table);
    assert s.transformed.airports == [a];
    assert KeyAll(map[], [a]) == map["LAX" := a];
  }
}

=== FILE: Transform.dfy ===
/**
 The per-record transform (makeAirports.js lines 51-63): each valid airports.dat
 row gets its scheduled-service flag, its country code and raw country name and
 its state, `countryNames` is updated, and the record is cut down to ten fields.
 */
module Transform {
  import opened Js
  import opened Dat
  import opened OurAirports

  /** An output airport record: exactly the ten fields kept by `_.pick`. */
  datatype Airport = Airport(
    name: Val, city: Val, country: Val, iata: Val,
    latitude: Val, longitude: Val, timezone: Val,
    hasScheduledService: bool, countryName: Val, state: Val)

  /** Length of the country prefix of an ISO 3166-2 region code, such as `US-`. */
  const RegionPrefixLength: nat := 3

  /** `states[iata] ? states[iata].substr(3).toLowerCase() : null`. */
  function StateOf(states: map<string, string>, iata: string): (r: Val)
    ensures r.Null? <==> !Truthy(Get(states, iata))
    ensures Truthy(Get(states, iata)) ==> r.Str?
    ensures r.Str? ==> iata in states && |r.s| == if |states[iata]| <= 3 then 0 else |states[iata]| - 3
    ensures r.Str? ==> forall i :: 0 <= i < |r.s| ==> r.s[i] == LowerChar(states[iata][i + 3])
    ensures r.Str? ==> forall i :: 0 <= i < |r.s| ==> !IsUpper(r.s[i])
  {
    var region := Get(states, iata);
    if Truthy(region) then Str(ToLower(Substr(region.s, RegionPrefixLength))) else Null
  }

  /** The region `US-CA` gives the state `ca`. */
  lemma StateOfUsRegion()
    ensures StateOf(map["LAX" := "US-CA"], "LAX") == Str("ca")
  {
    var r := StateOf(map["LAX" := "US-CA"], "LAX");
    assert "US-CA"[3] == 'C' && "US-CA"[4] == 'A';
    assert r.s[0] == 'c' && r.s[1] == 'a';
  }

  /** The body of the `airports.map` callback, followed by `_.pick`. */
  function TransformRow(row: DatRow, svc: Service, nameToCode: map<string, string>): (a: Airport)
    ensures a.hasScheduledService <==> row.iata in svc.scheduled && svc.scheduled[row.iata]
    ensures a.state != Undefined
    ensures a.state.Str? <==> row.iata in svc.states && svc.states[row.iata] != ""
    ensures a.country.Str? <==> row.country in nameToCode
    ensures PropKey(a.iata) == row.iata
  {
    Airport(
      name := Str(row.name),
      city := Str(row.city),
      country := Get(nameToCode, row.country),
      iata := Str(row.iata),
      latitude := Str(row.latitude),
      longitude := Str(row.longitude),
      timezone := Str(row.timezone),
      hasScheduledService := Flag(svc.scheduled, row.iata),
      countryName := Str(row.country),
      state := StateOf(svc.states, row.iata))
  }

  /** Seen from the OurAirports rows: the flag is true exactly when some row with
      the airport's IATA code has scheduled service, and the state comes from the
      last row with that code, or is null when there is none. */
  lemma TransformedServiceFields(row: DatRow, our: seq<OurRow>, nameToCode: map<string, string>)
    ensures TransformRow(row, Accumulate(NoService, our), nameToCode).hasScheduledService <==>
            exists j :: HasCode(our, row.iata, j) && our[j].scheduledService == "yes"
    ensures (forall j :: 0 <= j < |our| ==> !HasCode(our, row.iata, j)) ==>
            TransformRow(row, Accumulate(NoService, our), nameToCode).state == Null
    ensures forall j :: IsLastWithCode(our, row.iata, j) ==>
            TransformRow(row, Accumulate(NoService, our), nameToCode).state ==
              if our[j].isoRegion == "" then Null
              else Str(ToLower(Substr(our[j].isoRegion, RegionPrefixLength)))
  {
    var svc := Accumulate(NoService, our);
    AccumulateScheduled(NoService, our, row.iata);
    if forall j :: 0 <= j < |our| ==> !HasCode(our, row.iata, j) {
      AccumulateUntouched(NoService, our, row.iata);
    }
    forall j | IsLastWithCode(our, row.iata, j)
      ensures TransformRow(row, svc, nameToCode).state ==
              if our[j].isoRegion == "" then Null
              else Str(ToLower(Substr(our[j].isoRegion, RegionPrefixLength)))
    {
      AccumulateLastRegion(NoService, our, row.iata, j);
    }
  }

  /** `countryNames[c] = countryNames[c] || nameToCode[c]`, where `c` is the code. */
  function NoteCountryName(countryNames: map<string, Val>, code: Val, nameToCode: map<string, string>): (r: map<string, Val>)
    ensures r.Keys == countryNames.Keys + {PropKey(code)}
    ensures r[PropKey(code)] == Or(Lookup(countryNames, PropKey(code)), Get(nameToCode, PropKey(code)))
    ensures forall k :: k in countryNames && (k != PropKey(code) || Truthy(countryNames[k])) ==>
              r[k] == countryNames[k]
  {
    var k := PropKey(code);
    if Truthy(Lookup(countryNames, k)) then countryNames
    else countryNames[k := Get(nameToCode, k)]
  }

  /** Line 57 seen from one property name `k`. */
  lemma NoteCountryNameAt(countryNames: map<string, Val>, code: Val, nameToCode: map<string, string>, k: string)
    ensures Truthy(Lookup(countryNames, k)) ==>
            k in NoteCountryName(countryNames, code, nameToCode) &&
            NoteCountryName(countryNames, code, nameToCode)[k] == countryNames[k]
    ensures !Truthy(Lookup(countryNames, k)) && PropKey(code) == k ==>
            k in NoteCountryName(countryNames, code, nameToCode) &&
            NoteCountryName(countryNames, code, nameToCode)[k] == Get(nameToCode, k)
    ensures PropKey(code) != k ==>
            (k in NoteCountryName(countryNames, code, nameToCode) <==> k in countryNames) &&
            (k in countryNames ==> NoteCountryName(countryNames, code, nameToCode)[k] == countryNames[k])
  {
  }

  /** The transformed airports and the `countryNames` object after the map. */
  datatype Transformed = Transformed(airports: seq<Airport>, countryNames: map<string, Val>)

  /** `airports.map(...)` over `rows`, starting from the `countryNames` object `cn`. */
  function TransformAll(rows: seq<DatRow>, svc: Service, nameToCode: map<string, string>,
                        cn: map<string, Val>): (r: Transformed)
    ensures |r.airports| == |rows|
    ensures forall i :: 0 <= i < |rows| ==> r.airports[i] == TransformRow(rows[i], svc, nameToCode)
    decreases |rows|
  {
    if |rows| == 0 then Transformed([], cn)
    else
      var a := TransformRow(rows[0], svc, nameToCode);
      var rest := TransformAll(rows[1..], svc, nameToCode, NoteCountryName(cn, a.country, nameToCode));
      Transformed([a] + rest.airports, rest.countryNames)
  }

  /** Each output record keeps the row's own name, city, IATA code, coordinates and
      timezone, carries the raw airports.dat country name as `countryName`, and the
      table's code for that name as `country`. */
  lemma TransformCopiesDatFields(rows: seq<DatRow>, svc: Service, nameToCode: map<string, string>,
                                 cn: map<string, Val>, i: int)
    requires 0 <= i < |rows|
    ensures var a := TransformAll(rows, svc, nameToCode, cn).airports[i];
            && a.name == Str(rows[i].name) && a.city == Str(rows[i].city)
            && a.iata == Str(rows[i].iata) && a.timezone == Str(rows[i].timezone)
            && a.latitude == Str(rows[i].latitude) && a.longitude == Str(rows[i].longitude)
            && a.countryName == Str(rows[i].country)
            && (a.country.Str? <==> rows[i].country in nameToCode)
            && (a.country.Str? ==> a.country.s == nameToCode[rows[i].country])
  {
  }

  /** Row `i` of `rows` has a code whose property name is `k`. */
  predicate CodeKeyAt(rows: seq<DatRow>, nameToCode: map<string, string>, k: string, i: int) {
    0 <= i < |rows| && PropKey(Get(nameToCode, rows[i].country)) == k
  }

  /** What `countryNames[k]` holds after the map: a truthy value is never replaced;
      otherwise a row whose code is `k` sets it to `nameToCode[k]`; without such a
      row it is left alone. */
  lemma {:induction false} CountryNamesAt(rows: seq<DatRow>, svc: Service, nameToCode: map<string, string>,
                                          cn: map<string, Val>, k: string)
    ensures Truthy(Lookup(cn, k)) ==>
            k in TransformAll(rows, svc, nameToCode, cn).countryNames &&
            TransformAll(rows, svc, nameToCode, cn).countryNames[k] == cn[k]
    ensures !Truthy(Lookup(cn, k)) && (exists i :: CodeKeyAt(rows, nameToCode, k, i)) ==>
            k in TransformAll(rows, svc, nameToCode, cn).countryNames &&
            TransformAll(rows, svc, nameToCode, cn).countryNames[k] == Get(nameToCode, k)
    ensures (forall i :: 0 <= i < |rows| ==> !CodeKeyAt(rows, nameToCode, k, i)) ==>
            (k in TransformAll(rows, svc, nameToCode, cn).countryNames <==> k in cn) &&
            (k in cn ==> TransformAll(rows, svc, nameToCode, cn).countryNames[k] == cn[k])
    decreases |rows|
  {
    if |rows| > 0 {
      var a := TransformRow(rows[0], svc, nameToCode);
      var cn' := NoteCountryName(cn, a.country, nameToCode);
      NoteCountryNameAt(cn, a.country, nameToCode, k);
      CountryNamesAt(rows[1..], svc, nameToCode, cn', k);
      assert TransformAll(rows, svc, nameToCode, cn).countryNames ==
             TransformAll(rows[1..], svc, nameToCode, cn').countryNames;
      if exists i :: CodeKeyAt(rows[1..], nameToCode, k, i) {
        var i :| CodeKeyAt(rows[1..], nameToCode, k, i);
        assert CodeKeyAt(rows, nameToCode, k, i + 1);
      }
      if exists i :: CodeKeyAt(rows, nameToCode, k, i) {
        var i :| CodeKeyAt(rows, nameToCode, k, i);
        if i > 0 {
          assert CodeKeyAt(rows[1..], nameToCode, k, i - 1);
        }
      }
      if forall i :: 0 <= i < |rows| ==> !CodeKeyAt(rows, nameToCode, k, i) {
        assert !CodeKeyAt(rows, nameToCode, k, 0);
        forall i | 0 <= i < |rows[1..]|
          ensures !CodeKeyAt(rows[1..], nameToCode, k, i)
        {
          assert !CodeKeyAt(rows, nameToCode, k, i + 1);
        }
      }
    }
  }

  /** Starting from an empty object, every entry of `countryNames` is the
      name-to-code table looked up with a country CODE as the key. */
  lemma CountryNamesAreCodeLookups(rows: seq<DatRow>, svc: Service, nameToCode: map<string, string>)
    ensures forall k :: k in TransformAll(rows, svc, nameToCode, map[]).countryNames ==>
              TransformAll(rows, svc, nameToCode, map[]).countryNames[k] == Get(nameToCode, k)
  {
    var r := TransformAll(rows, svc, nameToCode, map[]);
    forall k | k in r.countryNames
      ensures r.countryNames[k] == Get(nameToCode, k)
    {
      CountryNamesAt(rows, svc, nameToCode, map[], k);
    }
  }
}
